=== FILE: README.md ===
# Visual search stimulus generator — Dafny model

This project models the visual-search core of the single React component in
`src/app/page.tsx`. The model has four parts, each a module.

- **Placement** (`placement.dfy`) is the stimulus generator. Distractor backslashes
  are placed first, then target slashes, on a square canvas with a 40-pixel padding.
  - A position is found by rejection sampling. Each glyph gets at most 1000
    candidate positions. A candidate is accepted only when it is farther than
    `fontSize * 1.5` from every glyph already placed. A glyph whose candidates are all
    blocked is silently dropped.
  - The first target iteration gives the correct target, in the correct target colour.
    Later target iterations give false targets, coloured `falseTargetColors[i % length]`.
  - Each distractor takes a random entry of `distractorColors`.
- **Trials** (`trials.dfy`) is the experiment. Starting an experiment pregenerates a
  "repeat" set, clears the results and starts a fixation cross.
  - When the fixation timer fires, a fresh set is shown, or, by a draw against the
    repeat percentage, the pregenerated one.
  - Pressing Space in fullscreen outside the fixation records the reaction time. The
    experiment then moves to the next trial, or ends after the configured number of
    trials.
- **Controls** (`controls.dfy`) holds the settings panel: the initial values, the clamps
  that each number input applies to what `parseInt` made of the typed text, and the
  colour selects.
- **Export** (`export.dfy`) is the text of the CSV download.

Randomness, the clock and the timers are inputs.
- `Math.random` is a stream of draws `rand: nat -> real` with a cursor. Every draw is in
  [0, 1).
- The draws are consumed in the order the JavaScript evaluates them:
  - x then y for each candidate;
  - a distractor's colour only after its position was found;
  - the repeat draw only when a pregenerated set exists, because `&&` short-circuits.
- `Date.now()` is the `now` carried by an event.
- A `setTimeout` callback firing is the `FixationElapsed` event. `pending` counts the
  timers that are scheduled and have not yet fired.

Geometry is on exact reals, and squared distances replace `Math.sqrt`.
- A negative spacing passes every test, as `Math.sqrt` never returns a negative value.
  The font-size clamp rules this case out anyway.
- JavaScript's `undefined`, read from an out-of-range colour index, is `None`.

Two behaviours of the code are modelled as written.
- The keyboard listener exists only while `isFullscreen` holds. On a canvas without
  `requestFullscreen`, an experiment starts but can never record a response.
  `Trials.NoFullscreenNoResponses` states this.
- The CSV download holds only the header line, however many results were recorded.
  `Export.CsvIgnoresResults` states this.

## Model

| member | source | states |
|---|---|---|
| Controls.AtLeast | src/app/page.tsx:556-714 | the lower-bound clamp `Math.max(lo, ...)` keeps a parsed value at or above the bound and otherwise gives the bound; a 0 or NaN parse falls back to the bound |
| Controls.Percent | src/app/page.tsx:692-692 | the repeat percentage is always in [0, 100]: values above 100 become 100, and negative or unparsable ones become 0 |
| Controls.Apply | src/app/page.tsx:553-716 | every panel edit keeps valid settings valid, keeps the lengths of the colour lists, and writes exactly one setting: each number input stores its own clamped value (`AtLeast(0)` for the counts and fixation, `AtLeast(200)` for the size, `AtLeast(12)` for the font, `Percent` for the repeat percentage, `AtLeast(1)` for the trial count), a colour select replaces only its own entry, and every other setting is unchanged |
| Controls.EditsKeepValid | src/app/page.tsx:553-716 | any sequence of edits from valid settings leaves them valid: counts ≥ 0, size ≥ 200, font ≥ 12, percentage in [0, 100], fixation ≥ 0, at least 1 trial |
| Controls.DefaultsValid | src/app/page.tsx:22-84 | the initial settings are valid, and so is every panel state reachable from them |
| Placement.ClearAt | src/app/page.tsx:110-113 | a position passes `stimuli.every(...)` exactly when it is apart from every glyph placed so far |
| Placement.SeparatedIffApart | src/app/page.tsx:110-113 | a set built by testing each new glyph against all earlier ones is exactly a set whose glyphs are pairwise farther apart than the spacing |
| Placement.Attempts | src/app/page.tsx:105-117 | the `while` loop stops right after its first successful attempt, or after the 1000th one, and every earlier attempt failed |
| Placement.Seek | src/app/page.tsx:105-117 | a search makes 1 to 1000 attempts at two draws each; a position it finds is the last candidate tried and is clear; it finds nothing only after 1000 attempts |
| Placement.SeekTakesFirstClear | src/app/page.tsx:105-117 | every candidate before the accepted one was blocked |
| Placement.SeekDropsOnlyWhenAllBlocked | src/app/page.tsx:105-128 | a glyph is dropped only when all 1000 of its candidates were blocked |
| Placement.PickColor | src/app/page.tsx:124-124 | `colors[Math.floor(r * length)]` is a member of the list, and it is defined for every unit draw when the list is non-empty |
| Placement.CycleColor | src/app/page.tsx:156-156 | a false target's colour always comes from `falseTargetColors` (defined exactly when the list is non-empty), cycling through it: the i-th iteration takes the i-th entry while the list lasts, then wraps around |
| Placement.Dress | src/app/page.tsx:119-157 | a placed glyph keeps the position found and is shaped as its loop and iteration prescribe; a distractor takes exactly one colour draw and a target slash none |
| Placement.PlaceOne | src/app/page.tsx:101-128 | one loop iteration pushes a glyph exactly when its search found a spot, and pushes it at that spot, shaped as the iteration prescribes; it uses between 2 and 2001 draws |
| Placement.PlaceOneDropsOnlyWhenAllBlocked | src/app/page.tsx:101-128 | an iteration pushes nothing only when all 1000 of its candidates were blocked by the glyphs already placed |
| Placement.PlaceOneClear | src/app/page.tsx:119-127 | a glyph is pushed only at a position clear of every earlier glyph |
| Placement.PlaceOneInCanvas | src/app/page.tsx:106-107 | a pushed glyph lies in [padding, size − padding) on both axes |
| Placement.PlaceOneOnEmpty | src/app/page.tsx:110-113 | on an empty canvas the first candidate is accepted: 2 draws, plus 1 colour draw for a distractor |
| Placement.CoordInRange | src/app/page.tsx:106-107 | `r * (size − 80) + 40` of a unit draw lies in [40, size − 40) when the canvas is wider than 80 |
| Placement.GrowSeparated | src/app/page.tsx:119-127 | pushing a glyph at a clear position keeps the set separated |
| Placement.Sweep | src/app/page.tsx:100-128 | a loop runs one iteration per count, the set grows by exactly the glyphs pushed in order, and it uses at most 2001 draws per iteration |
| Placement.SweepFits | src/app/page.tsx:119-157 | every glyph a loop pushes fits its own iteration, dropped iterations included in the numbering |
| Placement.SweepSeparated | src/app/page.tsx:106-127 | a loop keeps the growing set separated |
| Placement.SweepFirstPlaced | src/app/page.tsx:110-113 | a loop that starts on an empty canvas always places its first glyph |
| Placement.SweepSlotAt | src/app/page.tsx:101-159 | the loop unrolled: the slot of iteration k is what that iteration pushes when it searches from its own draw position against the glyphs already placed, those of earlier iterations included |
| Placement.SweepDropsOnlyWhenAllBlocked | src/app/page.tsx:106-119 | a loop leaves an iteration's slot empty only when every one of that iteration's 1000 candidates was blocked by the glyphs placed before it |
| Placement.Generate | src/app/page.tsx:95-165 | the set has at most `distractorCount + targetSlashCount` glyphs: the pushed distractors, then the pushed targets; it takes at most 2001 draws per loop iteration, dropped glyphs included |
| Placement.DistractorDropBlocked | src/app/page.tsx:101-128 | a distractor is missing from the generated set only when all 1000 of its candidates were blocked by the distractors placed before it |
| Placement.TargetDropBlocked | src/app/page.tsx:132-159 | a target slash is missing from the generated set only when all 1000 of its candidates were blocked by every placed distractor and the slashes placed before it |
| Placement.GenerateApart | src/app/page.tsx:95-162 | every two glyphs of a generated set are farther apart than `fontSize * 1.5` |
| Placement.GenerateFits | src/app/page.tsx:119-157 | distractor colours come from the distractor list; target iteration 0 has the correct colour; target iteration `i > 0` has `falseTargetColors[i % length]`; every glyph lies inside the padding |
| Placement.DistractorsPushed | src/app/page.tsx:119-127 | every glyph from the distractor loop is a non-target backslash |
| Placement.TargetsPushed | src/app/page.tsx:148-157 | among the glyphs of the target loop, only the one from iteration 0 is the correct target, and it has the correct colour |
| Placement.GenerateOrder | src/app/page.tsx:100-162 | all backslashes come before all slashes |
| Placement.GenerateTarget | src/app/page.tsx:131-157 | a glyph is the correct target exactly when it directly follows the distractors and target iteration 0 placed it; it has the correct colour; if that iteration was dropped there is no correct target |
| Placement.TargetPlacedWithoutDistractors | src/app/page.tsx:131-157 | with no distractors and at least one target, the correct target is always placed, first in the set |
| Placement.SingleTarget | src/app/page.tsx:95-165 | no distractors and one target give exactly one glyph: the correct target, in the correct colour, at the first candidate, after 2 draws |
| Trials.Refresh | src/app/page.tsx:333-336 | displaying a freshly generated set changes nothing but the displayed set and the draw cursor, and the new set is exactly what the generator produces from the current settings and draw cursor, so pairwise apart |
| Trials.Mount | src/app/page.tsx:333-336 | after mounting: default settings, no experiment, no results, no start time, no pending timer, trial counter 0, repeat flag off, and the display is exactly the set the generator produces from the default settings at the first draw (so pairwise apart) |
| Trials.ScheduleFixation | src/app/page.tsx:217-218 | `generateNewStimulus` shows the cross and schedules exactly one timer, and changes nothing else |
| Trials.Begin | src/app/page.tsx:238-245 | starting clears the results, resets the counter, activates, shows the cross, enters fullscreen when possible, and pregenerates, from the current settings and draw cursor, the generator's set, which is also displayed and is pairwise apart; the draw cursor moves exactly past the generator's draws and the repeat flag is kept |
| Trials.Reveal | src/app/page.tsx:219-234 | the timer ends the fixation and starts the clock; it repeats exactly when a pregenerated set exists and the draw is below `percentage / 100`, and then shows that set; otherwise it shows the generator's set drawn right after the repeat coin (or from the cursor when no set was pregenerated), pairwise apart, and moves the cursor past its draws |
| Trials.FoundTarget | src/app/page.tsx:248-279 | without a truthy start time or an active experiment nothing changes; otherwise exactly one result is appended, `(config, lastWasRepeat, now − start)`, and the block either ends out of fullscreen (no timer scheduled) or counts the trial and starts the next fixation with exactly one new timer; a response never touches the pregenerated set, the displayed set, the repeat flag or the draw cursor |
| Trials.Step | src/app/page.tsx:217-545 | while an experiment runs, edits, Generate New and Start do nothing (the panel is not rendered and the start button is disabled); while idle, an edit applies its control's handler, Generate New starts a fixation with one new timer and keeps the results, and Start opens a block with no results; the start time changes only when a timer fires, and then it is that moment; valid settings stay valid |
| Trials.MountInv | src/app/page.tsx:238-279 | the counting invariant holds after mounting |
| Trials.StepInv | src/app/page.tsx:238-279 | every event keeps the counting invariant: while active, one result per finished trial and the counter below the trial count |
| Trials.RunInv | src/app/page.tsx:238-279 | any sequence of events keeps the counting invariant |
| Trials.KeyDownRecords | src/app/page.tsx:353-366 | a key press records a result exactly when it is Space, outside the fixation, in fullscreen, during a timed trial, and it appends the reaction time |
| Trials.KeyDownIgnored | src/app/page.tsx:353-366 | outside fullscreen, between experiments, during the fixation, or for another key, a key press changes nothing |
| Trials.ResultsChangeOnlyByKeyOrStart | src/app/page.tsx:238-279 | only a start clears the results, and only a key press appends to them, one at a time |
| Trials.NoFullscreenNoResponses | src/app/page.tsx:353-354 | without fullscreen, and with no start that can enter it, no response is ever recorded |
| Trials.ZeroPercentNeverRepeats | src/app/page.tsx:222-222 | a repeat percentage of 0 never shows the pregenerated set |
| Trials.FullPercentAlwaysRepeats | src/app/page.tsx:222-225 | a repeat percentage of 100 always shows the pregenerated set once there is one |
| Trials.FixationEnds | src/app/page.tsx:219-234 | during a running block, the timer starts a timed trial that listens for Space |
| Trials.SpaceLogs | src/app/page.tsx:248-279 | Space during a timed trial logs one result and moves to the next fixation or ends the block |
| Trials.OneTrial | src/app/page.tsx:217-279 | a fixation ending at a positive time, then Space, logs exactly one result with the configuration and the time from stimulus to press |
| Trials.BlockRuns | src/app/page.tsx:248-279 | running the remaining trials of a block records one result per trial, in order, and ends the block out of fullscreen |
| Trials.Experiment | src/app/page.tsx:238-279 | a start in fullscreen, then `totalTrials` fixations, each followed by Space, gives exactly `totalTrials` results with the configuration and non-negative reaction times, and ends the experiment |
| Export.SplitJoin | src/app/page.tsx:289-289 | joining lines that hold no separator and splitting the text again gives the lines back |
| Export.JoinSplit | src/app/page.tsx:289-289 | splitting text at a separator and joining the pieces again gives the text back |
| Export.HeaderIsOneLine | src/app/page.tsx:285-287 | the header has no line break |
| Export.HeaderColumns | src/app/page.tsx:285-287 | the header names nine columns: trial, isRepeat, timeMs, stimulusIndex, symbol, isTarget, color, x, y |
| Export.ResultsCsv | src/app/page.tsx:282-289 | no download exactly when there are no results; otherwise the file is the single header line |
| Export.CsvIgnoresResults | src/app/page.tsx:282-289 | any two non-empty result logs download the same file |

## Left out

- Canvas drawing of the stimuli and of the fixation cross (`drawStimuli`, `drawFixationCross`): side effects on a 2D context.
- The image, config and JSON downloads, and the Blob, URL and anchor plumbing of the CSV download, including its `Date.now()` file name: foreign calls. Only the CSV text is modelled.
- The fullscreen DOM calls. Only the `isFullscreen` flag they set is modelled.
  - Starting sets it when the canvas offers `requestFullscreen`.
  - The end of a block clears it.
  - Leaving fullscreen with the browser's own controls does not change the flag in the source either.
- The effect that regenerates the displayed set whenever a placement setting changes. It only replaces the display. The draws it consumes are not counted against the cursor.
- React's stale closures and batched updates. Each handler here reads the latest state. In the source, the first fixation after a start still sees the previous render's pregenerated set, so the first trial of the very first experiment cannot be a repeat. The model allows one.
- Real time: the fixation duration does not order events. A timer firing is an event that can happen whenever a timer is pending.
- Floating point: coordinates and distances are exact reals, with no IEEE rounding of `Math.sqrt` or of the coordinate arithmetic. `parseInt` is an input (`Option<int>`), so a digit string too long for a double (which `parseInt` reads as `Infinity`) is not modelled.
- The panel's visibility toggle and the palette of the selects. An edit may happen whenever no experiment runs, and may pick any colour string rather than one of the nine palette entries.
- Probabilistic guarantees: the model proves none, such as "with generous spacing every glyph is placed". Against an arbitrary stream of draws such a statement does not hold.

=== FILE: controls.dfy ===
/** The settings panel of the visual-search generator: the configuration the
    placement engine and the trial machine read, its initial values, and the
    clamps that the number inputs apply to whatever the user types. */
module Controls {
  import opened Optional

  /** The generation parameters. This is also the snapshot stored with every
      trial result, so its fields are exactly the ones a result records. */
  datatype Config = Config(
    distractorCount: int,
    targetSlashCount: int,
    stimulusSize: int,
    fontSize: int,
    correctTargetColor: string,
    distractorColors: seq<string>,
    falseTargetColors: seq<string>,
    repeatPercentage: int,
    fixationDuration: int)

  /** Everything the panel holds: the configuration plus the trial count,
      which is not part of the recorded snapshot. */
  datatype Settings = Settings(config: Config, totalTrials: int)

  /** The values the component starts with. */
  const Defaults: Settings := Settings(
    Config(
      20, 3, 600, 24,
      "hsl(162, 73%, 46%)",
      ["hsl(210, 11%, 30%)", "hsl(270, 50%, 40%)", "hsl(15, 86%, 50%)"],
      ["hsl(0, 73%, 57%)", "hsl(221, 83%, 53%)", "hsl(43, 96%, 56%)"],
      20, 1000),
    30)

  /** The bounds the number inputs enforce, and non-empty colour lists (the
      panel only ever replaces entries of the three-entry lists it starts with). */
  predicate Valid(s: Settings) {
    var c := s.config;
    && c.distractorCount >= 0
    && c.targetSlashCount >= 0
    && c.stimulusSize >= 200
    && c.fontSize >= 12
    && 0 <= c.repeatPercentage <= 100
    && c.fixationDuration >= 0
    && s.totalTrials >= 1
    && |c.distractorColors| > 0
    && |c.falseTargetColors| > 0
  }

  function Max(a: int, b: int): int { if a < b then b else a }

  function Min(a: int, b: int): int { if a < b then a else b }

  /** `parseInt(text) || fallback`: a parse that fails (`NaN`) and a parse
      that yields 0 are both falsy, so both give way to the fallback. */
  function OrElse(parsed: Option<int>, fallback: int): int {
    match parsed
    case None => fallback
    case Some(n) => if n == 0 then fallback else n
  }

  /** `Math.max(lo, parseInt(text) || lo)`: the clamp of the count, size,
      font, fixation and trial inputs. It is the plain lower-bound clamp:
      a number at or above the bound is kept, anything else becomes the bound. */
  function AtLeast(lo: int, parsed: Option<int>): (r: int)
    requires lo >= 0
    ensures r >= lo
    ensures parsed.Some? && parsed.value >= lo ==> r == parsed.value
    ensures !(parsed.Some? && parsed.value >= lo) ==> r == lo
  {
    Max(lo, OrElse(parsed, lo))
  }

  /** `Math.max(0, Math.min(100, parseInt(text) || 0))`: the repeat
      percentage clamp, the only input bounded on both sides. */
  function Percent(parsed: Option<int>): (r: int)
    ensures 0 <= r <= 100
    ensures parsed.Some? && 0 <= parsed.value <= 100 ==> r == parsed.value
    ensures parsed.Some? && parsed.value > 100 ==> r == 100
    ensures parsed.None? || parsed.value < 0 ==> r == 0
  {
    Max(0, Min(100, OrElse(parsed, 0)))
  }

  /** One change made in the panel: a number typed into an input (already
      run through `parseInt`), or a colour picked in one of the selects. */
  datatype Edit =
    | DistractorCount(parsed: Option<int>)
    | TargetSlashCount(parsed: Option<int>)
    | StimulusSize(parsed: Option<int>)
    | FontSize(parsed: Option<int>)
    | RepeatPercentage(parsed: Option<int>)
    | FixationDuration(parsed: Option<int>)
    | TotalTrials(parsed: Option<int>)
    | CorrectTargetColor(color: string)
    | DistractorColor(index: int, color: string)
    | FalseTargetColor(index: int, color: string)

  /** A colour select exists only for an entry the list already has. */
  predicate Offered(s: Settings, e: Edit) {
    match e
    case DistractorColor(i, _) => 0 <= i < |s.config.distractorColors|
    case FalseTargetColor(i, _) => 0 <= i < |s.config.falseTargetColors|
    case _ => true
  }

  /** The `onChange` handler of each control. */
  function Apply(s: Settings, e: Edit): (r: Settings)
    requires Offered(s, e)
    ensures Valid(s) ==> Valid(r)
    ensures |r.config.distractorColors| == |s.config.distractorColors|
    ensures |r.config.falseTargetColors| == |s.config.falseTargetColors|
    ensures !e.TotalTrials? ==> r.totalTrials == s.totalTrials
    ensures e.TotalTrials? ==> r.config == s.config
    // Each input writes its own setting, through its own clamp, and no other.
    ensures e.DistractorCount? ==> r.config == s.config.(distractorCount := AtLeast(0, e.parsed))
    ensures e.TargetSlashCount? ==> r.config == s.config.(targetSlashCount := AtLeast(0, e.parsed))
    ensures e.StimulusSize? ==> r.config == s.config.(stimulusSize := AtLeast(200, e.parsed))
    ensures e.FontSize? ==> r.config == s.config.(fontSize := AtLeast(12, e.parsed))
    ensures e.RepeatPercentage? ==> r.config == s.config.(repeatPercentage := Percent(e.parsed))
    ensures e.FixationDuration? ==> r.config == s.config.(fixationDuration := AtLeast(0, e.parsed))
    ensures e.TotalTrials? ==> r.totalTrials == AtLeast(1, e.parsed)
    ensures e.CorrectTargetColor? ==> r.config == s.config.(correctTargetColor := e.color)
    // A colour select replaces its own entry of its own list and nothing else.
    ensures e.DistractorColor? ==>
      && r.config.(distractorColors := s.config.distractorColors) == s.config
      && r.config.distractorColors[e.index] == e.color
      && forall k :: 0 <= k < |s.config.distractorColors| && k != e.index ==>
           r.config.distractorColors[k] == s.config.distractorColors[k]
    ensures e.FalseTargetColor? ==>
      && r.config.(falseTargetColors := s.config.falseTargetColors) == s.config
      && r.config.falseTargetColors[e.index] == e.color
      && forall k :: 0 <= k < |s.config.falseTargetColors| && k != e.index ==>
           r.config.falseTargetColors[k] == s.config.falseTargetColors[k]
  {
    var c := s.config;
    match e
    case DistractorCount(p) => s.(config := c.(distractorCount := AtLeast(0, p)))
    case TargetSlashCount(p) => s.(config := c.(targetSlashCount := AtLeast(0, p)))
    case StimulusSize(p) => s.(config := c.(stimulusSize := AtLeast(200, p)))
    case FontSize(p) => s.(config := c.(fontSize := AtLeast(12, p)))
    case RepeatPercentage(p) => s.(config := c.(repeatPercentage := Percent(p)))
    case FixationDuration(p) => s.(config := c.(fixationDuration := AtLeast(0, p)))
    case TotalTrials(p) => s.(totalTrials := AtLeast(1, p))
    case CorrectTargetColor(v) => s.(config := c.(correctTargetColor := v))
    case DistractorColor(i, v) => s.(config := c.(distractorColors := c.distractorColors[i := v]))
    case FalseTargetColor(i, v) => s.(config := c.(falseTargetColors := c.falseTargetColors[i := v]))
  }

  /** A session of panel edits, in order. A select is rendered only for an
      entry the list has, so an edit that is not offered cannot arise; it is
      skipped here to keep the fold total. */
  function ApplyAll(s: Settings, edits: seq<Edit>): Settings
    decreases |edits|
  {
    if edits == [] then s
    else if Offered(s, edits[0]) then ApplyAll(Apply(s, edits[0]), edits[1..])
    else ApplyAll(s, edits[1..])
  }

  /** Whatever the user types or picks, the settings stay within the bounds
      the engine and the trial machine rely on. */
  lemma {:induction false} EditsKeepValid(s: Settings, edits: seq<Edit>)
    requires Valid(s)
    ensures Valid(ApplyAll(s, edits))
    decreases |edits|
  {
    if edits != [] {
      if Offered(s, edits[0]) {
        EditsKeepValid(Apply(s, edits[0]), edits[1..]);
      } else {
        EditsKeepValid(s, edits[1..]);
      }
    }
  }

  /** The initial settings are valid, so every reachable panel state is. */
  lemma DefaultsValid(edits: seq<Edit>)
    ensures Valid(ApplyAll(Defaults, edits))
  {
    EditsKeepValid(Defaults, edits);
  }
}

=== FILE: export.dfy ===
/** The CSV download of the recorded results. The rows array starts with the
    column header and nothing is ever appended to it, so a download holds the
    header line alone, whatever was recorded; with no results at all there is
    no download. */
module Export {
  import opened Optional
  import opened Trials

  const Newline: char := '\n'

  /** The columns the results file announces. */
  const Columns: seq<string> :=
    ["trial", "isRepeat", "timeMs", "stimulusIndex", "symbol", "isTarget", "color", "x", "y"]

  /** The column header of the results file:
      `trial,isRepeat,timeMs,stimulusIndex,symbol,isTarget,color,x,y`. */
  const CsvHeader: string := Join(Columns, ',')

  /** `lines.join(sep)`: the lines with one separator between neighbours. */
  function Join(lines: seq<string>, sep: char): (r: string)
    ensures |lines| == 1 ==> r == lines[0]
    decreases |lines|
  {
    if |lines| == 0 then []
    else if |lines| == 1 then lines[0]
    else lines[0] + [sep] + Join(lines[1..], sep)
  }

  /** `s.split(sep)`: the pieces between separators, always at least one. */
  function Split(s: string, sep: char): (r: seq<string>)
    ensures |r| > 0
    decreases |s|
  {
    if s == [] then [[]]
    else
      var rest := Split(s[1..], sep);
      if s[0] == sep then [[]] + rest else [[s[0]] + rest[0]] + rest[1..]
  }

  /** Splitting a line that holds no separator, glued in front of more text
      by a separator. */
  lemma {:induction false} SplitPrefix(line: string, sep: char, tail: string)
    requires sep !in line
    ensures Split(line + [sep] + tail, sep) == [line] + Split(tail, sep)
    decreases |line|
  {
    if line == [] {
      assert ([] + [sep] + tail)[1..] == tail;
    } else {
      var s := line + [sep] + tail;
      assert s[0] == line[0] && s[1..] == line[1..] + [sep] + tail;
      SplitPrefix(line[1..], sep, tail);
      assert [line[0]] + line[1..] == line;
    }
  }

  /** A line without separators splits into itself. */
  lemma {:induction false} SplitLine(line: string, sep: char)
    requires sep !in line
    ensures Split(line, sep) == [line]
    decreases |line|
  {
    if line != [] {
      SplitLine(line[1..], sep);
      assert [line[0]] + line[1..] == line;
    }
  }

  /** Joining lines that hold no separator and splitting the result gives
      the lines back. */
  lemma {:induction false} SplitJoin(lines: seq<string>, sep: char)
    requires |lines| > 0
    requires forall k :: 0 <= k < |lines| ==> sep !in lines[k]
    ensures Split(Join(lines, sep), sep) == lines
    decreases |lines|
  {
    if |lines| == 1 {
      SplitLine(lines[0], sep);
    } else {
      SplitPrefix(lines[0], sep, Join(lines[1..], sep));
      SplitJoin(lines[1..], sep);
      assert [lines[0]] + lines[1..] == lines;
    }
  }

  /** Splitting text and joining the pieces gives the text back. */
  lemma {:induction false} JoinSplit(s: string, sep: char)
    ensures Join(Split(s, sep), sep) == s
    decreases |s|
  {
    if s != [] {
      var rest := Split(s[1..], sep);
      JoinSplit(s[1..], sep);
      if s[0] == sep {
        assert ([[]] + rest)[1..] == rest;
        assert [sep] + s[1..] == s;
      } else {
        var r := [[s[0]] + rest[0]] + rest[1..];
        assert r[1..] == rest[1..];
        if |rest| == 1 {
          assert [s[0]] + s[1..] == s;
        } else {
          assert rest == [rest[0]] + rest[1..];
          assert [s[0]] + s[1..] == s;
        }
      }
    }
  }

  /** Joining pieces that lack a character other than the separator gives
      text that lacks it too. */
  lemma {:induction false} JoinLacks(lines: seq<string>, sep: char, c: char)
    requires c != sep
    requires forall k :: 0 <= k < |lines| ==> c !in lines[k]
    ensures c !in Join(lines, sep)
    decreases |lines|
  {
    if |lines| > 1 {
      JoinLacks(lines[1..], sep, c);
    }
  }

  /** A column name: no comma, no line break. */
  predicate Plain(name: string) {
    ',' !in name && Newline !in name
  }

  lemma ColumnsPlain()
    ensures forall k :: 0 <= k < |Columns| ==> Plain(Columns[k])
  {
    forall k | 0 <= k < |Columns|
      ensures Plain(Columns[k])
    {
      PlainName(Columns[k]);
    }
  }

  lemma PlainName(name: string)
    requires name in Columns
    ensures Plain(name)
  {
    if name == "trial" || name == "isRepeat" || name == "timeMs" {
    } else if name == "stimulusIndex" || name == "symbol" || name == "isTarget" {
    } else {
      assert name == "color" || name == "x" || name == "y";
    }
  }

  /** The header is a single line. */
  lemma HeaderIsOneLine()
    ensures Newline !in CsvHeader
  {
    ColumnsPlain();
    JoinLacks(Columns, ',', Newline);
  }

  /** Splitting the header at its commas gives the nine column names. */
  lemma HeaderColumns()
    ensures Split(CsvHeader, ',') == Columns
  {
    ColumnsPlain();
    SplitJoin(Columns, ',');
  }

  /** `downloadResultsCSV`: None when there is nothing to download, else
      the file's text, the rows joined by line breaks. */
  function ResultsCsv(results: seq<TrialResult>): (r: Option<string>)
    ensures r.None? <==> results == []
    ensures r.Some? ==> Split(r.value, Newline) == [CsvHeader]
  {
    if |results| == 0 then None
    else
      HeaderIsOneLine();
      SplitJoin([CsvHeader], Newline);
      Some(Join([CsvHeader], Newline))
  }

  /** The download does not depend on what was recorded: any two non-empty
      logs give the same file. */
  lemma CsvIgnoresResults(a: seq<TrialResult>, b: seq<TrialResult>)
    requires a != [] && b != []
    ensures ResultsCsv(a) == ResultsCsv(b)
  {
  }
}

=== FILE: optional.dfy ===
/** Some/None. In this model `None` stands for a value the component leaves
    `null` or `undefined`, or a parse that yields `NaN`. */
module Optional {

  datatype Option<+T> = None | Some(value: T)
}

=== FILE: placement.dfy ===
/** The stimulus placement engine: rejection sampling of non-overlapping
    glyph positions on a square canvas. Distractors (`\`) are placed first,
    then target slashes (`/`); each glyph gets at most `MaxAttempts`
    candidate positions and is dropped when none of them is clear. */
module Placement {
  import opened Optional
  import opened Controls

  /** Margin kept free on every side of the canvas. */
  const Padding: real := 40.0

  /** Candidate positions tried per glyph before it is dropped. */
  const MaxAttempts: nat := 1000

  /** Most draws one glyph can consume: two per candidate, one for a colour. */
  const DrawsPerGlyph: nat := 2 * MaxAttempts + 1

  datatype Symbol = Slash | Backslash

  /** One glyph on the canvas. `color` is None where the component reads a
      colour list out of range and gets `undefined`. */
  datatype Item = Item(x: real, y: real, isTarget: bool, color: Option<string>, symbol: Symbol)

  datatype Point = Point(x: real, y: real)

  /** The random source: the n-th value returned by `Math.random`. */
  type Draws = nat -> real

  /** What `Math.random` promises: every draw lies in [0, 1). */
  ghost predicate UnitDraws(rand: Draws) {
    forall n: nat :: 0.0 <= rand(n) < 1.0
  }

  /** Scales a unit draw to a coordinate inside the padded canvas. */
  function Coord(r: real, size: int): real {
    r * (size as real - 2.0 * Padding) + Padding
  }

  /** The k-th candidate position of a search whose first draw is at `start`. */
  function Candidate(rand: Draws, start: nat, k: nat, size: int): Point {
    Point(Coord(rand(start + 2 * k), size), Coord(rand(start + 2 * k + 1), size))
  }

  function DistSq(p: Point, q: Item): real {
    (p.x - q.x) * (p.x - q.x) + (p.y - q.y) * (p.y - q.y)
  }

  /** The square of the spacing `fontSize * 1.5`. Comparing squared distances
      against it is the same as comparing distances when the spacing is not
      negative; `Apart` handles the negative case. */
  function MinDistSq(fontSize: int): real {
    var d := fontSize as real * 1.5;
    d * d
  }

  /** `Math.sqrt(d) > fontSize * 1.5` for the squared distance `d`: a
      square root is never negative, so a negative spacing always passes. */
  predicate Apart(p: Point, q: Item, fontSize: int) {
    fontSize < 0 || DistSq(p, q) > MinDistSq(fontSize)
  }

  /** A position is clear when it is farther than the spacing from every
      glyph already placed (the `stimuli.every(...)` test), checked here from
      the most recent glyph back; `ClearAt` gives the indexed form. */
  predicate Clear(p: Point, placed: seq<Item>, fontSize: int)
    decreases |placed|
  {
    placed == [] ||
    (Apart(p, placed[|placed| - 1], fontSize) && Clear(p, placed[..|placed| - 1], fontSize))
  }

  lemma {:induction false} ClearAt(p: Point, placed: seq<Item>, fontSize: int)
    ensures Clear(p, placed, fontSize) <==>
      forall k :: 0 <= k < |placed| ==> Apart(p, placed[k], fontSize)
    decreases |placed|
  {
    if placed != [] {
      var n := |placed| - 1;
      var prefix := placed[..n];
      ClearAt(p, prefix, fontSize);
      assert forall k :: 0 <= k < n ==> placed[k] == prefix[k];
    }
  }

  function At(it: Item): Point { Point(it.x, it.y) }

  /** A set built the way the engine builds it: every glyph stood clear of
      all the glyphs placed before it. */
  predicate Separated(items: seq<Item>, fontSize: int)
    decreases |items|
  {
    items == [] ||
    (var n := |items| - 1;
     Separated(items[..n], fontSize) && Clear(At(items[n]), items[..n], fontSize))
  }

  /** Every two glyphs of a set are farther apart than the spacing. */
  ghost predicate PairwiseApart(items: seq<Item>, fontSize: int) {
    forall i, j :: 0 <= i < |items| && 0 <= j < |items| && i != j ==>
      Apart(At(items[i]), items[j], fontSize)
  }

  /** Squared distance does not depend on which glyph is measured from. */
  lemma DistSqSymmetric(a: Item, b: Item)
    ensures DistSq(At(a), b) == DistSq(At(b), a)
  {
    assert (a.x - b.x) * (a.x - b.x) == (b.x - a.x) * (b.x - a.x);
    assert (a.y - b.y) * (a.y - b.y) == (b.y - a.y) * (b.y - a.y);
  }

  /** Building a set glyph by glyph, each clear of the ones before it, is
      exactly the same as asking every two glyphs to be apart. */
  lemma {:induction false} SeparatedIffApart(items: seq<Item>, fontSize: int)
    ensures Separated(items, fontSize) <==> PairwiseApart(items, fontSize)
    decreases |items|
  {
    if items != [] {
      var n := |items| - 1;
      var prefix := items[..n];
      SeparatedIffApart(prefix, fontSize);
      ClearAt(At(items[n]), prefix, fontSize);
      assert forall k :: 0 <= k < n ==> items[k] == prefix[k];
      if Separated(items, fontSize) {
        forall i, j | 0 <= i < |items| && 0 <= j < |items| && i != j
          ensures Apart(At(items[i]), items[j], fontSize)
        {
          if i == n {
            assert Apart(At(items[n]), prefix[j], fontSize);
          } else if j == n {
            DistSqSymmetric(items[i], items[n]);
            assert Apart(At(items[n]), prefix[i], fontSize);
          } else {
            assert Apart(At(prefix[i]), prefix[j], fontSize);
          }
        }
      }
      if PairwiseApart(items, fontSize) {
        assert forall i, j :: 0 <= i < n && 0 <= j < n && i != j ==>
          Apart(At(prefix[i]), prefix[j], fontSize);
        assert forall k :: 0 <= k < n ==> Apart(At(items[n]), prefix[k], fontSize);
      }
    }
  }

  /** The outcome of the search for one glyph's position. */
  datatype Search = Search(spot: Option<Point>, attempts: nat, next: nat)

  /** The control of the `while (!validPosition && attempts < maxAttempts)`
      loop, from attempt `k` on, where `ok(j)` tells whether attempt `j`
      finds a clear position: the number of attempts made. The loop stops
      right after the first successful attempt, or after the last allowed one. */
  function Attempts(ok: nat -> bool, k: nat): (n: nat)
    requires k < MaxAttempts
    ensures k < n <= MaxAttempts
    ensures forall j :: k <= j < n - 1 ==> !ok(j)
    ensures n < MaxAttempts ==> ok(n - 1)
    decreases MaxAttempts - k
  {
    if ok(k) || k + 1 == MaxAttempts then k + 1 else Attempts(ok, k + 1)
  }

  /** Whether the `j`-th candidate of a search stands clear. */
  function ClearCandidates(rand: Draws, start: nat, placed: seq<Item>, size: int, fontSize: int): nat -> bool
  {
    (j: nat) => Clear(Candidate(rand, start, j, size), placed, fontSize)
  }

  /** The search for one glyph's position, with the draws starting at
      `start`: two draws per attempt, and the last candidate tried is the
      position found when it is clear. */
  function Seek(rand: Draws, start: nat, placed: seq<Item>, size: int, fontSize: int): (r: Search)
    ensures 0 < r.attempts <= MaxAttempts
    ensures r.next == start + 2 * r.attempts
    ensures r.spot.Some? ==> r.spot.value == Candidate(rand, start, r.attempts - 1, size)
    ensures r.spot.Some? ==> Clear(r.spot.value, placed, fontSize)
    ensures r.spot.None? ==> r.attempts == MaxAttempts
  {
    var ok := ClearCandidates(rand, start, placed, size, fontSize);
    var n := Attempts(ok, 0);
    var p := Candidate(rand, start, n - 1, size);
    if ok(n - 1) then Search(Some(p), n, start + 2 * n)
    else Search(None, n, start + 2 * n)
  }

  /** The search stops at the first clear candidate, or after the last
      attempt, and reports a spot exactly when that candidate is clear. */
  lemma SeekAttempts(rand: Draws, start: nat, placed: seq<Item>, size: int, fontSize: int)
    ensures var r := Seek(rand, start, placed, size, fontSize);
      var ok := ClearCandidates(rand, start, placed, size, fontSize);
      r.attempts == Attempts(ok, 0) && (r.spot.Some? <==> ok(r.attempts - 1))
  {
  }

  /** Rejection sampling takes the FIRST clear candidate: every candidate
      before the one taken was blocked. */
  lemma SeekTakesFirstClear(rand: Draws, start: nat, placed: seq<Item>, size: int, fontSize: int, j: nat)
    requires j < Seek(rand, start, placed, size, fontSize).attempts - 1
    ensures !Clear(Candidate(rand, start, j, size), placed, fontSize)
  {
    var ok := ClearCandidates(rand, start, placed, size, fontSize);
    assert !ok(j);
  }

  /** A glyph is dropped only when all `MaxAttempts` of its candidates were
      blocked. */
  lemma SeekDropsOnlyWhenAllBlocked(rand: Draws, start: nat, placed: seq<Item>, size: int, fontSize: int, j: nat)
    requires Seek(rand, start, placed, size, fontSize).spot.None?
    requires j < MaxAttempts
    ensures !Clear(Candidate(rand, start, j, size), placed, fontSize)
  {
    var ok := ClearCandidates(rand, start, placed, size, fontSize);
    var n := Attempts(ok, 0);
    if j == n - 1 {
      assert !ok(n - 1);
    } else {
      assert j < n - 1;
    }
    assert !ok(j);
  }

  /** Picks `colors[Math.floor(r * colors.length)]`; None when that index is
      out of range (always so for an empty list). */
  function PickColor(colors: seq<string>, r: real): (c: Option<string>)
    ensures c.Some? ==> c.value in colors
    ensures 0.0 <= r < 1.0 && |colors| > 0 ==> c.Some?
  {
    var n := |colors|;
    var k := (r * n as real).Floor;
    FloorIndex(r, n);
    if 0 <= k < n then Some(colors[k]) else None
  }

  /** `Math.floor(r * n)` of a unit draw is an index of an n-entry list. */
  lemma FloorIndex(r: real, n: int)
    ensures 0.0 <= r < 1.0 && n > 0 ==> 0 <= (r * n as real).Floor < n
  {
    if 0.0 <= r < 1.0 && n > 0 {
      var x := r * n as real;
      ScaleBelow(r, n as real);
      assert 0.0 <= x < n as real;
      assert x.Floor as real <= x;
    }
  }

  /** A unit draw scales a positive width into [0, width). */
  lemma ScaleBelow(r: real, w: real)
    ensures 0.0 <= r < 1.0 && w > 0.0 ==> 0.0 <= r * w < w
  {
    if 0.0 <= r < 1.0 && w > 0.0 {
      assert w - r * w == (1.0 - r) * w;
    }
  }

  /** `falseTargetColors[i % falseTargetColors.length]`; None for an empty list. */
  function CycleColor(colors: seq<string>, i: nat): (c: Option<string>)
    ensures |colors| > 0 <==> c.Some?
    ensures c.Some? ==> c.value == colors[i % |colors|]
    ensures c.Some? ==> c.value in colors
    ensures i < |colors| ==> c == Some(colors[i])
  {
    if |colors| == 0 then None else Some(colors[i % |colors|])
  }

  /** What iteration `i` of the `symbol` loop may push: the shape, target
      flag and colour the source gives it. */
  predicate Shaped(symbol: Symbol, i: nat, cfg: Config, it: Item) {
    && it.symbol == symbol
    && match symbol
       case Backslash =>
         && !it.isTarget
         && (it.color.Some? ==> it.color.value in cfg.distractorColors)
         && (|cfg.distractorColors| > 0 ==> it.color.Some?)
       case Slash =>
         && (it.isTarget <==> i == 0)
         && (i == 0 ==> it.color == Some(cfg.correctTargetColor))
         && (i > 0 ==> it.color == CycleColor(cfg.falseTargetColors, i))
  }

  /** The glyph placed by loop iteration `i` at a found position, and the
      draw after it: a distractor draws its colour, a target slash does not. */
  function Dress(symbol: Symbol, i: nat, p: Point, cfg: Config, rand: Draws, pos: nat): (r: (Item, nat))
    requires UnitDraws(rand)
    ensures Shaped(symbol, i, cfg, r.0)
    ensures At(r.0) == p
    ensures pos <= r.1 <= pos + 1
    ensures r.1 == pos + (if symbol == Backslash then 1 else 0)
  {
    match symbol
    case Backslash =>
      (Item(p.x, p.y, false, PickColor(cfg.distractorColors, rand(pos)), Backslash), pos + 1)
    case Slash =>
      var correct := i == 0;
      (Item(p.x, p.y, correct,
            if correct then Some(cfg.correctTargetColor) else CycleColor(cfg.falseTargetColors, i),
            Slash),
       pos)
  }

  /** Inside the padded canvas: both coordinates in [padding, size - padding). */
  predicate InCanvas(it: Item, size: int) {
    && Padding <= it.x < size as real - Padding
    && Padding <= it.y < size as real - Padding
  }

  /** The glyphs that were pushed, in loop order: the present slots. */
  function Present<T>(slots: seq<Option<T>>): (r: seq<T>)
    ensures |r| <= |slots|
    ensures forall k :: 0 <= k < |r| ==> Some(r[k]) in slots
    decreases |slots|
  {
    if slots == [] then []
    else
      var rest := Present(slots[1..]);
      match slots[0]
      case None => rest
      case Some(v) => [v] + rest
  }

  /** A glyph iteration `i` may push: shaped as the iteration prescribes,
      and inside the canvas whenever the canvas is wider than its padding. */
  predicate Fits(symbol: Symbol, i: nat, cfg: Config, it: Item) {
    && Shaped(symbol, i, cfg, it)
    && (cfg.stimulusSize > 80 ==> InCanvas(it, cfg.stimulusSize))
  }

  /** Iteration `i + j` pushed, if anything, a glyph that fits that
      iteration. Stated along the loop so that it follows the recursion of
      `Sweep`; `AllFitAt` gives the indexed form. */
  predicate AllFit(symbol: Symbol, i: nat, cfg: Config, slots: seq<Option<Item>>)
    decreases |slots|
  {
    slots == [] ||
    ((slots[0].Some? ==> Fits(symbol, i, cfg, slots[0].value)) && AllFit(symbol, i + 1, cfg, slots[1..]))
  }

  lemma {:induction false} AllFitAt(symbol: Symbol, i: nat, cfg: Config, slots: seq<Option<Item>>)
    requires AllFit(symbol, i, cfg, slots)
    ensures forall j :: 0 <= j < |slots| && slots[j].Some? ==> Fits(symbol, i + j, cfg, slots[j].value)
    decreases |slots|
  {
    if slots != [] {
      AllFitAt(symbol, i + 1, cfg, slots[1..]);
      forall j | 1 <= j < |slots| && slots[j].Some?
        ensures Fits(symbol, i + j, cfg, slots[j].value)
      {
        assert slots[j] == slots[1..][j - 1];
      }
    }
  }

  lemma ItemsStep(acc: seq<Item>, slot: Option<Item>, rest: seq<Option<Item>>)
    ensures Grow(acc, slot) + Present(rest) == acc + Present([slot] + rest)
  {
    PresentCons(slot, rest);
    GrowPresent(acc, slot);
    assert (acc + Present([slot])) + Present(rest) == acc + (Present([slot]) + Present(rest));
  }

  lemma BudgetStep(n: nat)
    ensures (n + 1) * DrawsPerGlyph == DrawsPerGlyph + n * DrawsPerGlyph
  {
  }

  lemma GrowPresent(acc: seq<Item>, slot: Option<Item>)
    ensures Grow(acc, slot) == acc + Present([slot])
  {
    assert [slot][1..] == [];
  }

  lemma PresentCons<T>(slot: Option<T>, rest: seq<Option<T>>)
    ensures Present([slot] + rest) == Present([slot]) + Present(rest)
  {
    assert ([slot] + rest)[1..] == rest;
    assert [slot][1..] == [];
  }

  /** The result of one `for` loop: `slots[j]` is what iteration `i + j`
      pushed (None when its glyph was dropped), `items` the whole set so far. */
  datatype Pass = Pass(slots: seq<Option<Item>>, items: seq<Item>, next: nat)

  function Iterations(count: int, i: nat): nat {
    if count <= i then 0 else count - i
  }

  /** One iteration of the distractor or the target loop: search for a
      clear position and, if one is found, push the dressed glyph. Returns
      what was pushed (None for a dropped glyph) and the next draw. */
  function PlaceOne(symbol: Symbol, i: nat, cfg: Config, rand: Draws, pos: nat, acc: seq<Item>): (r: (Option<Item>, nat))
    requires UnitDraws(rand)
    ensures r.0.Some? ==> Shaped(symbol, i, cfg, r.0.value)
    ensures r.0.Some? <==> Seek(rand, pos, acc, cfg.stimulusSize, cfg.fontSize).spot.Some?
    ensures r.0.Some? ==> At(r.0.value) == Seek(rand, pos, acc, cfg.stimulusSize, cfg.fontSize).spot.value
    ensures pos + 2 <= r.1 <= pos + DrawsPerGlyph
  {
    var s := Seek(rand, pos, acc, cfg.stimulusSize, cfg.fontSize);
    match s.spot
    case None => (None, s.next)
    case Some(p) =>
      var d := Dress(symbol, i, p, cfg, rand, s.next);
      (Some(d.0), d.1)
  }

  /** An iteration pushes nothing only when every one of its `MaxAttempts`
      candidates was blocked by the glyphs already placed. */
  lemma PlaceOneDropsOnlyWhenAllBlocked(symbol: Symbol, i: nat, cfg: Config, rand: Draws, pos: nat,
                                        acc: seq<Item>, j: nat)
    requires UnitDraws(rand)
    requires PlaceOne(symbol, i, cfg, rand, pos, acc).0.None?
    requires j < MaxAttempts
    ensures !Clear(Candidate(rand, pos, j, cfg.stimulusSize), acc, cfg.fontSize)
  {
    SeekDropsOnlyWhenAllBlocked(rand, pos, acc, cfg.stimulusSize, cfg.fontSize, j);
  }

  /** A glyph is placed only at a position clear of every glyph before it. */
  lemma PlaceOneClear(symbol: Symbol, i: nat, cfg: Config, rand: Draws, pos: nat, acc: seq<Item>)
    requires UnitDraws(rand)
    ensures var r := PlaceOne(symbol, i, cfg, rand, pos, acc);
      r.0.Some? ==> Clear(At(r.0.value), acc, cfg.fontSize)
  {
  }

  /** A glyph that is placed lies inside the padded canvas. */
  lemma PlaceOneInCanvas(symbol: Symbol, i: nat, cfg: Config, rand: Draws, pos: nat, acc: seq<Item>)
    requires UnitDraws(rand)
    requires cfg.stimulusSize > 80
    ensures var r := PlaceOne(symbol, i, cfg, rand, pos, acc);
      r.0.Some? ==> InCanvas(r.0.value, cfg.stimulusSize)
  {
    var s := Seek(rand, pos, acc, cfg.stimulusSize, cfg.fontSize);
    if s.spot.Some? {
      InCanvasFromUnit(rand, pos, s.attempts - 1, cfg.stimulusSize);
    }
  }

  /** On an empty canvas the first candidate is taken: two draws for the
      position, plus one for a distractor's colour. */
  lemma PlaceOneOnEmpty(symbol: Symbol, i: nat, cfg: Config, rand: Draws, pos: nat)
    requires UnitDraws(rand)
    ensures var r := PlaceOne(symbol, i, cfg, rand, pos, []);
      r.0.Some? && r.1 == pos + 2 + (if symbol == Backslash then 1 else 0)
  {
  }

  /** The set after an iteration: one glyph longer when it placed one. */
  function Grow(acc: seq<Item>, slot: Option<Item>): seq<Item> {
    match slot
    case None => acc
    case Some(v) => acc + [v]
  }

  /** Pushing a glyph at a clear position keeps the set separated. */
  lemma GrowSeparated(acc: seq<Item>, slot: Option<Item>, fontSize: int)
    requires Separated(acc, fontSize)
    requires slot.Some? ==> Clear(At(slot.value), acc, fontSize)
    ensures Separated(Grow(acc, slot), fontSize)
  {
    if slot.Some? {
      assert Grow(acc, slot)[..|acc|] == acc;
    }
  }

  /** Iterations `i .. count - 1` of the distractor or the target loop,
      appending to `acc`, with the draws starting at `pos`. */
  function Sweep(symbol: Symbol, count: int, i: nat, cfg: Config, rand: Draws, pos: nat, acc: seq<Item>): (r: Pass)
    requires UnitDraws(rand)
    ensures |r.slots| == Iterations(count, i)
    ensures r.items == acc + Present(r.slots)
    ensures pos <= r.next <= pos + |r.slots| * DrawsPerGlyph
    decreases Iterations(count, i)
  {
    if count <= i then Pass([], acc, pos)
    else
      var step := PlaceOne(symbol, i, cfg, rand, pos, acc);
      var rest := Sweep(symbol, count, i + 1, cfg, rand, step.1, Grow(acc, step.0));
      ItemsStep(acc, step.0, rest.slots);
      BudgetStep(|rest.slots|);
      Pass([step.0] + rest.slots, rest.items, rest.next)
  }

  /** One iteration of a loop, then the rest of it. */
  lemma SweepUnfold(symbol: Symbol, count: int, i: nat, cfg: Config, rand: Draws, pos: nat, acc: seq<Item>)
    requires UnitDraws(rand)
    requires i < count
    ensures var step := PlaceOne(symbol, i, cfg, rand, pos, acc);
      var here := Sweep(symbol, count, i, cfg, rand, pos, acc);
      var rest := Sweep(symbol, count, i + 1, cfg, rand, step.1, Grow(acc, step.0));
      here.slots == [step.0] + rest.slots && here.items == rest.items
  {
  }

  /** Every glyph a loop pushes is shaped as its iteration prescribes and
      lies inside the padded canvas. */
  lemma {:induction false} SweepFits(symbol: Symbol, count: int, i: nat, cfg: Config, rand: Draws, pos: nat, acc: seq<Item>)
    requires UnitDraws(rand)
    ensures AllFit(symbol, i, cfg, Sweep(symbol, count, i, cfg, rand, pos, acc).slots)
    decreases Iterations(count, i)
  {
    if i < count {
      var step := PlaceOne(symbol, i, cfg, rand, pos, acc);
      var rest := Sweep(symbol, count, i + 1, cfg, rand, step.1, Grow(acc, step.0));
      if cfg.stimulusSize > 80 {
        PlaceOneInCanvas(symbol, i, cfg, rand, pos, acc);
      }
      SweepFits(symbol, count, i + 1, cfg, rand, step.1, Grow(acc, step.0));
      SweepUnfold(symbol, count, i, cfg, rand, pos, acc);
      var slots := Sweep(symbol, count, i, cfg, rand, pos, acc).slots;
      assert slots[1..] == rest.slots;
    }
  }

  /** A loop keeps the set separated: each glyph it pushes stood clear of
      every glyph before it. */
  lemma {:induction false} SweepSeparated(symbol: Symbol, count: int, i: nat, cfg: Config, rand: Draws, pos: nat, acc: seq<Item>)
    requires UnitDraws(rand)
    requires Separated(acc, cfg.fontSize)
    ensures Separated(Sweep(symbol, count, i, cfg, rand, pos, acc).items, cfg.fontSize)
    decreases Iterations(count, i)
  {
    if i < count {
      var step := PlaceOne(symbol, i, cfg, rand, pos, acc);
      var grown := Grow(acc, step.0);
      PlaceOneClear(symbol, i, cfg, rand, pos, acc);
      GrowSeparated(acc, step.0, cfg.fontSize);
      SweepSeparated(symbol, count, i + 1, cfg, rand, step.1, grown);
      SweepUnfold(symbol, count, i, cfg, rand, pos, acc);
    }
  }

  /** The first glyph of a loop that starts on an empty canvas is always
      placed: `every` over no glyphs holds, so its first candidate is clear. */
  lemma SweepFirstPlaced(symbol: Symbol, count: int, i: nat, cfg: Config, rand: Draws, pos: nat)
    requires UnitDraws(rand)
    requires i < count
    ensures Sweep(symbol, count, i, cfg, rand, pos, []).slots[0].Some?
  {
    PlaceOneOnEmpty(symbol, i, cfg, rand, pos);
    SweepUnfold(symbol, count, i, cfg, rand, pos, []);
  }

  /** The draw at which iteration `i + j` of a loop starts its search. */
  function DrawStart(symbol: Symbol, count: int, i: nat, cfg: Config, rand: Draws, pos: nat, acc: seq<Item>, j: nat): (r: nat)
    requires UnitDraws(rand)
    ensures r >= pos
    decreases j
  {
    if j == 0 || count <= i then pos
    else
      var step := PlaceOne(symbol, i, cfg, rand, pos, acc);
      DrawStart(symbol, count, i + 1, cfg, rand, step.1, Grow(acc, step.0), j - 1)
  }

  /** Peeling the first iteration off the glyphs pushed before iteration `j`. */
  lemma PrefixStep(acc: seq<Item>, s0: Option<Item>, rest: seq<Option<Item>>, j: nat)
    requires 0 < j <= |rest| + 1
    ensures Grow(acc, s0) + Present(rest[..j - 1]) == acc + Present(([s0] + rest)[..j])
  {
    assert ([s0] + rest)[..j] == [s0] + rest[..j - 1];
    ItemsStep(acc, s0, rest[..j - 1]);
  }

  /** What iteration `j - 1` of the rest of a loop saw and pushed is what
      iteration `j` of the whole loop saw and pushed. */
  lemma SlotShift(acc: seq<Item>, s0: Option<Item>, rest: seq<Option<Item>>, slots: seq<Option<Item>>,
                  j: nat, v: Option<Item>, seen: seq<Item>)
    requires slots == [s0] + rest && 0 < j <= |rest|
    requires rest[j - 1] == v && seen == Grow(acc, s0) + Present(rest[..j - 1])
    ensures slots[j] == v && seen == acc + Present(slots[..j])
  {
    PrefixStep(acc, s0, rest, j);
  }

  /** The first iteration of a loop, as what it pushed, the draw after it
      and the slots of the remaining iterations. */
  lemma SweepPeel(symbol: Symbol, count: int, i: nat, cfg: Config, rand: Draws, pos: nat, acc: seq<Item>, j: nat)
    returns (s0: Option<Item>, next: nat, rest: seq<Option<Item>>)
    requires UnitDraws(rand)
    requires i < count
    ensures Sweep(symbol, count, i, cfg, rand, pos, acc).slots == [s0] + rest
    ensures rest == Sweep(symbol, count, i + 1, cfg, rand, next, Grow(acc, s0)).slots
    ensures j > 0 ==>
      DrawStart(symbol, count, i, cfg, rand, pos, acc, j) == DrawStart(symbol, count, i + 1, cfg, rand, next, Grow(acc, s0), j - 1)
    ensures s0 == PlaceOne(symbol, i, cfg, rand, pos, acc).0
  {
    var step := PlaceOne(symbol, i, cfg, rand, pos, acc);
    SweepUnfold(symbol, count, i, cfg, rand, pos, acc);
    s0, next := step.0, step.1;
    rest := Sweep(symbol, count, i + 1, cfg, rand, next, Grow(acc, s0)).slots;
  }

  /** The loop unrolled: the slot of iteration `k` is what that iteration
      pushes when it searches from its own draw position against `acc` and
      everything iterations `i .. k - 1` pushed. */
  lemma SweepSlotAt(symbol: Symbol, count: int, i: nat, cfg: Config, rand: Draws, pos: nat, acc: seq<Item>, k: nat)
    requires UnitDraws(rand)
    requires i <= k < i + |Sweep(symbol, count, i, cfg, rand, pos, acc).slots|
    ensures var slots := Sweep(symbol, count, i, cfg, rand, pos, acc).slots;
      slots[k - i] == PlaceOne(symbol, k, cfg, rand, DrawStart(symbol, count, i, cfg, rand, pos, acc, k - i),
                               acc + Present(slots[..k - i])).0
    decreases k - i, 1
  {
    if k == i {
      FirstSlot(symbol, count, i, cfg, rand, pos, acc);
    } else {
      LaterSlot(symbol, count, i, cfg, rand, pos, acc, k);
    }
  }

  lemma FirstSlot(symbol: Symbol, count: int, i: nat, cfg: Config, rand: Draws, pos: nat, acc: seq<Item>)
    requires UnitDraws(rand)
    requires 0 < |Sweep(symbol, count, i, cfg, rand, pos, acc).slots|
    ensures var slots := Sweep(symbol, count, i, cfg, rand, pos, acc).slots;
      slots[0] == PlaceOne(symbol, i, cfg, rand, DrawStart(symbol, count, i, cfg, rand, pos, acc, 0),
                           acc + Present(slots[..0])).0
  {
    var slots := Sweep(symbol, count, i, cfg, rand, pos, acc).slots;
    SweepUnfold(symbol, count, i, cfg, rand, pos, acc);
    assert acc + Present(slots[..0]) == acc;
  }

  lemma {:induction false} LaterSlot(symbol: Symbol, count: int, i: nat, cfg: Config, rand: Draws, pos: nat,
                                     acc: seq<Item>, k: nat)
    requires UnitDraws(rand)
    requires i < k < i + |Sweep(symbol, count, i, cfg, rand, pos, acc).slots|
    ensures var slots := Sweep(symbol, count, i, cfg, rand, pos, acc).slots;
      slots[k - i] == PlaceOne(symbol, k, cfg, rand, DrawStart(symbol, count, i, cfg, rand, pos, acc, k - i),
                               acc + Present(slots[..k - i])).0
    decreases k - i, 0
  {
    var j := k - i;
    var slots := Sweep(symbol, count, i, cfg, rand, pos, acc).slots;
    var s0, next, rest := SweepPeel(symbol, count, i, cfg, rand, pos, acc, j);
    var start := DrawStart(symbol, count, i + 1, cfg, rand, next, Grow(acc, s0), j - 1);
    var seen := Grow(acc, s0) + Present(rest[..j - 1]);
    SweepSlotAt(symbol, count, i + 1, cfg, rand, next, Grow(acc, s0), k);
    assert k - (i + 1) == j - 1;
    SlotShift(acc, s0, rest, slots, j, PlaceOne(symbol, k, cfg, rand, start, seen).0, seen);
  }

  /** A loop leaves the slot of iteration `i + j` empty only when every
      candidate of that iteration was blocked by the glyphs placed before
      it: `acc` and what iterations `i .. i + j - 1` pushed. */
  lemma SweepDropsOnlyWhenAllBlocked(symbol: Symbol, count: int, i: nat, cfg: Config,
                                     rand: Draws, pos: nat, acc: seq<Item>, j: nat, a: nat)
    requires UnitDraws(rand)
    requires j < |Sweep(symbol, count, i, cfg, rand, pos, acc).slots|
    requires Sweep(symbol, count, i, cfg, rand, pos, acc).slots[j].None?
    requires a < MaxAttempts
    ensures !Clear(Candidate(rand, DrawStart(symbol, count, i, cfg, rand, pos, acc, j), a, cfg.stimulusSize),
                   acc + Present(Sweep(symbol, count, i, cfg, rand, pos, acc).slots[..j]), cfg.fontSize)
  {
    var slots := Sweep(symbol, count, i, cfg, rand, pos, acc).slots;
    SweepSlotAt(symbol, count, i, cfg, rand, pos, acc, i + j);
    assert i + j - i == j;
    PlaceOneDropsOnlyWhenAllBlocked(symbol, i + j, cfg, rand, DrawStart(symbol, count, i, cfg, rand, pos, acc, j),
                                    acc + Present(slots[..j]), a);
  }

  /** A unit draw lands inside the padded range of one axis. */
  lemma CoordInRange(r: real, size: int)
    ensures 0.0 <= r < 1.0 && size > 80 ==> Padding <= Coord(r, size) < size as real - Padding
  {
    if 0.0 <= r < 1.0 && size > 80 {
      var w := size as real - 2.0 * Padding;
      var c := Coord(r, size);
      assert c == r * w + Padding;
      ScaleBelow(r, w);
    }
  }

  lemma InCanvasFromUnit(rand: Draws, start: nat, k: nat, size: int)
    requires UnitDraws(rand)
    ensures size > 80 ==>
      var p := Candidate(rand, start, k, size);
      Padding <= p.x < size as real - Padding && Padding <= p.y < size as real - Padding
  {
    CoordInRange(rand(start + 2 * k), size);
    CoordInRange(rand(start + 2 * k + 1), size);
  }

  /** What one run of the engine produced: the glyph set, what each
      iteration of the distractor and of the target loop pushed, and the
      next unused draw. */
  datatype Stimuli = Stimuli(items: seq<Item>, distractorSlots: seq<Option<Item>>,
                             targetSlots: seq<Option<Item>>, next: nat)

  /** The whole engine: the distractor loop, then the target loop (the
      `hasTarget` flag is fixed to true), each glyph checked against every
      glyph placed before it, distractors included. */
  function Generate(cfg: Config, rand: Draws, pos: nat): (r: Stimuli)
    requires UnitDraws(rand)
    ensures |r.distractorSlots| == Iterations(cfg.distractorCount, 0)
    ensures |r.targetSlots| == Iterations(cfg.targetSlashCount, 0)
    ensures r.items == Present(r.distractorSlots) + Present(r.targetSlots)
    ensures |r.items| <= |r.distractorSlots| + |r.targetSlots|
    ensures pos <= r.next <= pos + |r.distractorSlots| * DrawsPerGlyph + |r.targetSlots| * DrawsPerGlyph
  {
    var d := Sweep(Backslash, cfg.distractorCount, 0, cfg, rand, pos, []);
    assert d.items == Present(d.slots);
    var t := Sweep(Slash, cfg.targetSlashCount, 0, cfg, rand, d.next, d.items);
    Stimuli(t.items, d.slots, t.slots, t.next)
  }

  /** No two glyphs of a generated set are within the spacing of each other. */
  lemma GenerateApart(cfg: Config, rand: Draws, pos: nat)
    requires UnitDraws(rand)
    ensures PairwiseApart(Generate(cfg, rand, pos).items, cfg.fontSize)
  {
    var d := Sweep(Backslash, cfg.distractorCount, 0, cfg, rand, pos, []);
    SweepSeparated(Backslash, cfg.distractorCount, 0, cfg, rand, pos, []);
    SweepSeparated(Slash, cfg.targetSlashCount, 0, cfg, rand, d.next, d.items);
    SeparatedIffApart(Generate(cfg, rand, pos).items, cfg.fontSize);
  }

  /** The draw after the distractor loop, where the target loop starts. */
  function DistractorsEnd(cfg: Config, rand: Draws, pos: nat): nat
    requires UnitDraws(rand)
  {
    Sweep(Backslash, cfg.distractorCount, 0, cfg, rand, pos, []).next
  }

  /** A distractor is dropped only when every one of its candidates was
      blocked by the distractors placed before it. */
  lemma DistractorDropBlocked(cfg: Config, rand: Draws, pos: nat, j: nat, a: nat)
    requires UnitDraws(rand)
    requires j < |Generate(cfg, rand, pos).distractorSlots|
    requires Generate(cfg, rand, pos).distractorSlots[j].None?
    requires a < MaxAttempts
    ensures var start := DrawStart(Backslash, cfg.distractorCount, 0, cfg, rand, pos, [], j);
      !Clear(Candidate(rand, start, a, cfg.stimulusSize), Present(Generate(cfg, rand, pos).distractorSlots[..j]), cfg.fontSize)
  {
    var d := Sweep(Backslash, cfg.distractorCount, 0, cfg, rand, pos, []);
    assert Generate(cfg, rand, pos).distractorSlots == d.slots;
    SweepDropsOnlyWhenAllBlocked(Backslash, cfg.distractorCount, 0, cfg, rand, pos, [], j, a);
    assert [] + Present(d.slots[..j]) == Present(d.slots[..j]);
  }

  /** A target slash is dropped only when every one of its candidates was
      blocked by the distractors and by the slashes placed before it. */
  lemma TargetDropBlocked(cfg: Config, rand: Draws, pos: nat, j: nat, a: nat)
    requires UnitDraws(rand)
    requires j < |Generate(cfg, rand, pos).targetSlots|
    requires Generate(cfg, rand, pos).targetSlots[j].None?
    requires a < MaxAttempts
    ensures var g := Generate(cfg, rand, pos);
      var start := DrawStart(Slash, cfg.targetSlashCount, 0, cfg, rand, DistractorsEnd(cfg, rand, pos),
                             Present(g.distractorSlots), j);
      !Clear(Candidate(rand, start, a, cfg.stimulusSize), Present(g.distractorSlots) + Present(g.targetSlots[..j]), cfg.fontSize)
  {
    var d := Sweep(Backslash, cfg.distractorCount, 0, cfg, rand, pos, []);
    assert d.items == Present(d.slots);
    var t := Sweep(Slash, cfg.targetSlashCount, 0, cfg, rand, d.next, d.items);
    var g := Generate(cfg, rand, pos);
    assert g.distractorSlots == d.slots;
    assert g.targetSlots == t.slots;
    SweepDropsOnlyWhenAllBlocked(Slash, cfg.targetSlashCount, 0, cfg, rand, d.next, d.items, j, a);
  }

  /** Iteration `j` of the `symbol` loop pushed, if anything, a glyph shaped
      as that iteration prescribes. */
  ghost predicate LoopFits(symbol: Symbol, cfg: Config, slots: seq<Option<Item>>) {
    forall j :: 0 <= j < |slots| && slots[j].Some? ==> Fits(symbol, j, cfg, slots[j].value)
  }

  /** A whole loop, started at iteration 0, pushes only fitting glyphs. */
  lemma SweepLoopFits(symbol: Symbol, count: int, cfg: Config, rand: Draws, pos: nat, acc: seq<Item>)
    requires UnitDraws(rand)
    ensures LoopFits(symbol, cfg, Sweep(symbol, count, 0, cfg, rand, pos, acc).slots)
  {
    SweepFits(symbol, count, 0, cfg, rand, pos, acc);
    LoopFitsFromAllFit(symbol, cfg, Sweep(symbol, count, 0, cfg, rand, pos, acc).slots);
  }

  lemma LoopFitsFromAllFit(symbol: Symbol, cfg: Config, slots: seq<Option<Item>>)
    requires AllFit(symbol, 0, cfg, slots)
    ensures LoopFits(symbol, cfg, slots)
  {
    AllFitAt(symbol, 0, cfg, slots);
  }

  /** Every glyph is shaped as the iteration that pushed it prescribes,
      counting dropped iterations: a distractor's colour is one of the
      distractor colours, the target of iteration 0 is the correct target
      colour and the target of iteration `i > 0` takes the false-target
      colour at `i % length`; on a canvas wider than its padding every
      glyph lies inside the padding. */
  lemma GenerateFits(cfg: Config, rand: Draws, pos: nat)
    requires UnitDraws(rand)
    ensures var r := Generate(cfg, rand, pos);
      LoopFits(Backslash, cfg, r.distractorSlots) && LoopFits(Slash, cfg, r.targetSlots)
  {
    var d := Sweep(Backslash, cfg.distractorCount, 0, cfg, rand, pos, []);
    SweepLoopFits(Backslash, cfg.distractorCount, cfg, rand, pos, []);
    SweepLoopFits(Slash, cfg.targetSlashCount, cfg, rand, d.next, d.items);
  }

  /** The glyphs a distractor loop pushed are non-target backslashes. */
  lemma DistractorsPushed(cfg: Config, ds: seq<Option<Item>>, k: nat)
    requires LoopFits(Backslash, cfg, ds)
    requires k < |Present(ds)|
    ensures Present(ds)[k].symbol == Backslash && !Present(ds)[k].isTarget
  {
    assert Some(Present(ds)[k]) in ds;
  }

  /** The `m`-th glyph pushed came from iteration `j`, no earlier than `m`. */
  lemma {:induction false} PushedAt<T>(slots: seq<Option<T>>, m: nat) returns (j: nat)
    requires m < |Present(slots)|
    ensures m <= j < |slots| && slots[j] == Some(Present(slots)[m])
    decreases |slots|
  {
    var rest := slots[1..];
    match slots[0]
    case None =>
      var j' := PushedAt(rest, m);
      j := j' + 1;
    case Some(v) =>
      if m == 0 {
        j := 0;
      } else {
        var j' := PushedAt(rest, m - 1);
        j := j' + 1;
      }
  }

  /** The glyphs a target loop pushed are slashes; only the one pushed by
      the first iteration, which comes first, is the correct target, and it
      carries the correct target colour. */
  lemma TargetsPushed(cfg: Config, ts: seq<Option<Item>>, m: nat)
    requires LoopFits(Slash, cfg, ts)
    requires m < |Present(ts)|
    ensures Present(ts)[m].symbol == Slash
    ensures Present(ts)[m].isTarget <==> (m == 0 && ts[0].Some?)
    ensures Present(ts)[m].isTarget ==> Present(ts)[m].color == Some(cfg.correctTargetColor)
  {
    var j := PushedAt(ts, m);
    assert Fits(Slash, j, cfg, Present(ts)[m]);
    if m == 0 && ts[0].Some? {
      assert j == 0;
    }
  }

  /** The set lists the distractors first, then the target slashes. */
  lemma GenerateOrder(cfg: Config, rand: Draws, pos: nat, k: nat)
    requires UnitDraws(rand)
    requires k < |Generate(cfg, rand, pos).items|
    ensures var r := Generate(cfg, rand, pos);
      r.items[k].symbol == (if k < |Present(r.distractorSlots)| then Backslash else Slash)
  {
    var r := Generate(cfg, rand, pos);
    var nd := |Present(r.distractorSlots)|;
    GenerateFits(cfg, rand, pos);
    if k < nd {
      DistractorsPushed(cfg, r.distractorSlots, k);
    } else {
      TargetsPushed(cfg, r.targetSlots, k - nd);
    }
  }

  /** Exactly one glyph can be the correct target: the one pushed by the
      first target iteration, right after the distractors, and it carries
      the correct target colour. When that iteration was dropped, the set
      holds no correct target at all. */
  lemma GenerateTarget(cfg: Config, rand: Draws, pos: nat, k: nat)
    requires UnitDraws(rand)
    requires k < |Generate(cfg, rand, pos).items|
    ensures var r := Generate(cfg, rand, pos);
      r.items[k].isTarget <==>
        (k == |Present(r.distractorSlots)| && |r.targetSlots| > 0 && r.targetSlots[0].Some?)
    ensures var r := Generate(cfg, rand, pos);
      r.items[k].isTarget ==> r.items[k].color == Some(cfg.correctTargetColor)
  {
    var r := Generate(cfg, rand, pos);
    var nd := |Present(r.distractorSlots)|;
    GenerateFits(cfg, rand, pos);
    if k < nd {
      DistractorsPushed(cfg, r.distractorSlots, k);
    } else {
      TargetsPushed(cfg, r.targetSlots, k - nd);
    }
  }

  /** Without distractors, the correct target is always placed: the first
      target slash meets an empty canvas, where any position is clear. */
  lemma TargetPlacedWithoutDistractors(cfg: Config, rand: Draws, pos: nat)
    requires UnitDraws(rand)
    requires cfg.distractorCount <= 0 < cfg.targetSlashCount
    ensures var r := Generate(cfg, rand, pos);
      r.targetSlots[0].Some? && r.items[0] == r.targetSlots[0].value &&
      r.items[0].isTarget && r.items[0].color == Some(cfg.correctTargetColor)
  {
    var r := Generate(cfg, rand, pos);
    var d := Sweep(Backslash, cfg.distractorCount, 0, cfg, rand, pos, []);
    assert d.items == [];
    SweepFirstPlaced(Slash, cfg.targetSlashCount, 0, cfg, rand, d.next);
    PresentCons(r.targetSlots[0], r.targetSlots[1..]);
    assert [r.targetSlots[0]] + r.targetSlots[1..] == r.targetSlots;
    GenerateFits(cfg, rand, pos);
  }

  /** A single target slash and no distractors: the set is exactly that
      target, in the correct colour, placed at the first candidate after
      two draws. */
  lemma SingleTarget(cfg: Config, rand: Draws, pos: nat)
    requires UnitDraws(rand)
    requires cfg.distractorCount == 0 && cfg.targetSlashCount == 1
    ensures var r := Generate(cfg, rand, pos);
      && |r.items| == 1
      && r.items[0].isTarget && r.items[0].symbol == Slash
      && r.items[0].color == Some(cfg.correctTargetColor)
      && At(r.items[0]) == Candidate(rand, pos, 0, cfg.stimulusSize)
      && r.next == pos + 2
  {
    var r := Generate(cfg, rand, pos);
    TargetPlacedWithoutDistractors(cfg, rand, pos);
    PlaceOneOnEmpty(Slash, 0, cfg, rand, pos);
    SweepUnfold(Slash, 1, 0, cfg, rand, pos, []);
    assert r.targetSlots == [r.targetSlots[0]];
  }
}

=== FILE: trials.dfy ===
/** The experiment: a block of timed trials. Each trial shows a fixation
    cross for a while, then a stimulus (a fresh one, or by chance the block's
    pregenerated one), and ends when the subject presses Space; the reaction
    time is recorded with the configuration and whether the stimulus was a
    repeat. The component's state is one `Machine` value and every handler
    is a pure transition over it. */
module Trials {
  import opened Optional
  import opened Controls
  import opened Placement

  /** One recorded response. */
  datatype TrialResult = TrialResult(config: Config, isRepeat: bool, timeMs: int)

  /** The component state the experiment reads and writes.
      `trialStartTime` is None for `null`; `pending` counts the fixation
      timers that are scheduled and have not fired yet; `cursor` is the
      index of the next unused `Math.random` draw. */
  datatype Machine = Machine(
    settings: Settings,
    active: bool,
    fullscreen: bool,
    showFixation: bool,
    trialNumber: int,
    trialStartTime: Option<int>,
    lastWasRepeat: bool,
    pregenerated: Option<seq<Item>>,
    current: seq<Item>,
    results: seq<TrialResult>,
    pending: nat,
    cursor: nat)

  /** What can happen to the component: a panel edit, the "Generate New"
      button, a "Start Experiment" button (`canFullscreen` says whether the
      canvas offers `requestFullscreen`), a fixation timer firing, and a key
      press. `now` is the value `Date.now()` returns at that moment. */
  datatype Event =
    | Edited(edit: Edit)
    | GenerateClicked
    | StartClicked(canFullscreen: bool)
    | FixationElapsed(now: int)
    | KeyDown(code: string, now: int)

  /** The component before its first render: default settings, no
      experiment, nothing displayed and no draw taken. */
  const Initial: Machine :=
    Machine(Defaults, false, false, false, 0, None, false, None, [], [], 0, 0)

  /** `generateStimuli()` followed by `drawStimuli`, as the mount effect runs
      it: a fresh set, generated from the current settings, is displayed. */
  function Refresh(m: Machine, rand: Draws): (r: Machine)
    requires UnitDraws(rand)
    ensures PairwiseApart(r.current, m.settings.config.fontSize)
    ensures r.current == Generate(m.settings.config, rand, m.cursor).items
    ensures r.cursor >= m.cursor
    ensures r.(current := m.current, cursor := m.cursor) == m
  {
    var g := Generate(m.settings.config, rand, m.cursor);
    GenerateApart(m.settings.config, rand, m.cursor);
    m.(current := g.items, cursor := g.next)
  }

  /** The component right after mounting: the mount effect has displayed
      a first set. */
  function Mount(rand: Draws): (m: Machine)
    requires UnitDraws(rand)
    ensures m.settings == Defaults && !m.active && !m.fullscreen && !m.showFixation
    ensures m.results == [] && m.trialStartTime.None? && m.pregenerated.None? && m.pending == 0
    ensures PairwiseApart(m.current, Defaults.config.fontSize)
    ensures m.current == Generate(Initial.settings.config, rand, 0).items
    ensures m.trialNumber == 0 && !m.lastWasRepeat
  {
    Refresh(Initial, rand)
  }

  /** `generateNewStimulus`: show the fixation cross and schedule the timer
      that ends it. */
  function ScheduleFixation(m: Machine): (r: Machine)
    ensures r.showFixation && r.pending == m.pending + 1
    ensures r.(showFixation := m.showFixation, pending := m.pending) == m
  {
    m.(showFixation := true, pending := m.pending + 1)
  }

  /** `startExperiment`: pregenerate the block's repeat stimulus (which also
      becomes the displayed set), clear the results, reset the trial
      counter, go fullscreen when the canvas can, and start the first
      fixation. */
  function Begin(m: Machine, canFullscreen: bool, rand: Draws): (r: Machine)
    requires UnitDraws(rand)
    ensures r.active && r.showFixation && r.results == [] && r.trialNumber == 0
    ensures r.fullscreen <==> m.fullscreen || canFullscreen
    ensures r.pregenerated == Some(r.current)
    ensures PairwiseApart(r.current, m.settings.config.fontSize)
    ensures r.current == Generate(m.settings.config, rand, m.cursor).items
    ensures r.pending == m.pending + 1 && r.cursor >= m.cursor
    ensures r.cursor == Generate(m.settings.config, rand, m.cursor).next
    ensures r.lastWasRepeat == m.lastWasRepeat
    ensures r.settings == m.settings && r.trialStartTime == m.trialStartTime
  {
    var g := Generate(m.settings.config, rand, m.cursor);
    GenerateApart(m.settings.config, rand, m.cursor);
    var started := m.(pregenerated := Some(g.items), current := g.items, cursor := g.next,
                      results := [], trialNumber := 0, active := true,
                      fullscreen := m.fullscreen || canFullscreen);
    ScheduleFixation(started)
  }

  /** Whether the repeat coin says to reuse the pregenerated set: a set must
      exist, and only then is a draw taken and compared with the percentage. */
  predicate RepeatChosen(m: Machine, rand: Draws) {
    m.pregenerated.Some? && rand(m.cursor) < m.settings.config.repeatPercentage as real / 100.0
  }

  /** The fixation timer's callback: hide the cross, show either the
      pregenerated set or a freshly generated one, and start the clock. */
  function Reveal(m: Machine, now: int, rand: Draws): (r: Machine)
    requires UnitDraws(rand)
    requires m.pending > 0
    ensures !r.showFixation && r.trialStartTime == Some(now) && r.pending == m.pending - 1
    ensures r.lastWasRepeat <==> RepeatChosen(m, rand)
    ensures r.lastWasRepeat ==> r.current == m.pregenerated.value && r.cursor == m.cursor + 1
    ensures !r.lastWasRepeat ==> PairwiseApart(r.current, m.settings.config.fontSize)
    ensures !r.lastWasRepeat ==>
      var coin := if m.pregenerated.Some? then m.cursor + 1 else m.cursor;
      r.current == Generate(m.settings.config, rand, coin).items
      && r.cursor == Generate(m.settings.config, rand, coin).next
    ensures r.settings == m.settings && r.active == m.active && r.fullscreen == m.fullscreen
    ensures r.results == m.results && r.trialNumber == m.trialNumber && r.pregenerated == m.pregenerated
  {
    var coin := if m.pregenerated.Some? then m.cursor + 1 else m.cursor;
    var repeat := RepeatChosen(m, rand);
    var g := Generate(m.settings.config, rand, coin);
    GenerateApart(m.settings.config, rand, coin);
    var shown := if repeat then m.(current := m.pregenerated.value, cursor := coin)
      else m.(current := g.items, cursor := g.next);
    shown.(showFixation := false, lastWasRepeat := repeat, trialStartTime := Some(now), pending := m.pending - 1)
  }

  /** `trialStartTime && experimentActive`: JavaScript truthiness, so a start
      time of 0 counts as no start time. */
  predicate Timing(m: Machine) {
    m.active && m.trialStartTime.Some? && m.trialStartTime.value != 0
  }

  /** `handleFoundTarget`: record the reaction time with the current
      configuration; then either end the block (and leave fullscreen) or
      count the trial and start the next fixation. Does nothing unless a
      trial is being timed. */
  function FoundTarget(m: Machine, now: int): (r: Machine)
    ensures !Timing(m) ==> r == m
    ensures Timing(m) ==>
      r.results == m.results + [TrialResult(m.settings.config, m.lastWasRepeat, now - m.trialStartTime.value)]
    ensures Timing(m) ==> (r.active <==> m.trialNumber + 1 < m.settings.totalTrials)
    ensures Timing(m) && !r.active ==> !r.fullscreen && r.trialNumber == m.trialNumber
    ensures Timing(m) && r.active ==> r.trialNumber == m.trialNumber + 1 && r.showFixation
    ensures r.settings == m.settings && r.trialStartTime == m.trialStartTime
    ensures r.pregenerated == m.pregenerated && r.current == m.current
    ensures r.cursor == m.cursor && r.lastWasRepeat == m.lastWasRepeat
    ensures Timing(m) && r.active ==> r.pending == m.pending + 1
    ensures Timing(m) && !r.active ==> r.pending == m.pending && r.showFixation == m.showFixation
  {
    if !Timing(m) then m
    else
      var logged := m.(results := m.results + [TrialResult(m.settings.config, m.lastWasRepeat, now - m.trialStartTime.value)]);
      if m.trialNumber + 1 >= m.settings.totalTrials then
        logged.(active := false, fullscreen := false)
      else
        ScheduleFixation(logged.(trialNumber := m.trialNumber + 1))
  }

  /** The key listener is installed only while fullscreen and active, and
      reacts only to Space outside the fixation. */
  predicate Listening(m: Machine, code: string) {
    m.fullscreen && m.active && !m.showFixation && code == "Space"
  }

  /** One event. The settings panel, the "Generate New" button and both
      "Start Experiment" buttons are rendered only while no experiment runs
      (one start button is disabled instead), so they act only then. */
  function Step(m: Machine, e: Event, rand: Draws): (r: Machine)
    requires UnitDraws(rand)
    ensures r.cursor >= m.cursor
    ensures !e.FixationElapsed? ==> r.trialStartTime == m.trialStartTime
    ensures e.FixationElapsed? && m.pending > 0 ==> r.trialStartTime == Some(e.now) && !r.showFixation
    ensures Valid(m.settings) ==> Valid(r.settings)
    ensures m.active ==> r.settings == m.settings
    ensures m.active && (e.Edited? || e.GenerateClicked? || e.StartClicked?) ==> r == m
    ensures !m.active && e.Edited? && Offered(m.settings, e.edit) ==> r.settings == Apply(m.settings, e.edit)
    ensures !m.active && e.GenerateClicked? ==> r.showFixation && r.pending == m.pending + 1 && r.results == m.results
    ensures !m.active && e.StartClicked? ==> r.active && r.results == [] && r.trialNumber == 0
  {
    match e
    case Edited(ed) =>
      if !m.active && Offered(m.settings, ed) then m.(settings := Apply(m.settings, ed)) else m
    case GenerateClicked =>
      if !m.active then ScheduleFixation(m) else m
    case StartClicked(can) =>
      if !m.active then Begin(m, can, rand) else m
    case FixationElapsed(now) =>
      if m.pending > 0 then Reveal(m, now, rand) else m
    case KeyDown(code, now) =>
      if Listening(m, code) then FoundTarget(m, now) else m
  }

  /** A sequence of events, in order. */
  function Run(m: Machine, events: seq<Event>, rand: Draws): Machine
    requires UnitDraws(rand)
    decreases |events|
  {
    if events == [] then m else Run(Step(m, events[0], rand), events[1..], rand)
  }

  /** The bookkeeping the handlers keep: while a block runs, one result per
      completed trial and the counter below the trial count; once it ends,
      the last result was logged without advancing the counter. */
  predicate Inv(m: Machine) {
    && Valid(m.settings)
    && m.trialNumber >= 0
    && (m.active ==> |m.results| == m.trialNumber < m.settings.totalTrials)
    && (!m.active ==> |m.results| <= m.trialNumber + 1)
  }

  lemma MountInv(rand: Draws)
    requires UnitDraws(rand)
    ensures Inv(Mount(rand))
  {
    var m := Mount(rand);
    assert m.settings == Defaults && Valid(Defaults);
  }

  /** Every event keeps the bookkeeping. */
  lemma StepInv(m: Machine, e: Event, rand: Draws)
    requires UnitDraws(rand)
    requires Inv(m)
    ensures Inv(Step(m, e, rand))
  {
  }

  lemma {:induction false} RunInv(m: Machine, events: seq<Event>, rand: Draws)
    requires UnitDraws(rand)
    requires Inv(m)
    ensures Inv(Run(m, events, rand))
    decreases |events|
  {
    if events != [] {
      StepInv(m, events[0], rand);
      RunInv(Step(m, events[0], rand), events[1..], rand);
    }
  }

  /** A response is recorded exactly when Space is pressed, outside the
      fixation, in fullscreen, while a trial is being timed; the result
      holds the reaction time since the stimulus appeared. */
  lemma KeyDownRecords(m: Machine, code: string, now: int, rand: Draws)
    requires UnitDraws(rand)
    ensures var r := Step(m, KeyDown(code, now), rand);
      (r.results != m.results <==> Listening(m, code) && Timing(m))
    ensures var r := Step(m, KeyDown(code, now), rand);
      r.results != m.results ==>
        r.results == m.results + [TrialResult(m.settings.config, m.lastWasRepeat, now - m.trialStartTime.value)]
  {
    var r := Step(m, KeyDown(code, now), rand);
    if Listening(m, code) && Timing(m) {
      assert |r.results| == |m.results| + 1;
    }
  }

  /** Outside fullscreen, during the fixation, between blocks, or for any
      key but Space, a key press changes nothing at all. */
  lemma KeyDownIgnored(m: Machine, code: string, now: int, rand: Draws)
    requires UnitDraws(rand)
    requires !m.fullscreen || !m.active || m.showFixation || code != "Space"
    ensures Step(m, KeyDown(code, now), rand) == m
  {
  }

  /** Only a key press appends to the results, and only a start clears them. */
  lemma ResultsChangeOnlyByKeyOrStart(m: Machine, e: Event, rand: Draws)
    requires UnitDraws(rand)
    ensures var r := Step(m, e, rand);
      r.results != m.results ==>
        (e.StartClicked? && r.results == []) ||
        (e.KeyDown? && |r.results| == |m.results| + 1 && r.results[..|m.results|] == m.results)
  {
    var r := Step(m, e, rand);
    if e.KeyDown? && r.results != m.results {
      KeyDownRecords(m, e.code, e.now, rand);
      assert (m.results + [r.results[|m.results|]])[..|m.results|] == m.results;
    }
  }

  /** Without fullscreen no response is ever recorded: the only event that
      enters fullscreen is a start on a canvas that can, and until one
      happens the results are what they were, or cleared by a start. */
  lemma {:induction false} NoFullscreenNoResponses(m: Machine, events: seq<Event>, rand: Draws)
    requires UnitDraws(rand)
    requires !m.fullscreen
    requires forall k :: 0 <= k < |events| ==> events[k] != StartClicked(true)
    ensures var r := Run(m, events, rand);
      !r.fullscreen && (r.results == m.results || r.results == [])
    decreases |events|
  {
    if events != [] {
      var n := Step(m, events[0], rand);
      assert n.results == m.results || n.results == [];
      NoFullscreenNoResponses(n, events[1..], rand);
    }
  }

  /** A repeat percentage of 0 never repeats. */
  lemma ZeroPercentNeverRepeats(m: Machine, now: int, rand: Draws)
    requires UnitDraws(rand)
    requires m.pending > 0
    requires m.settings.config.repeatPercentage == 0
    ensures !Step(m, FixationElapsed(now), rand).lastWasRepeat
  {
  }

  /** A repeat percentage of 100 always shows the pregenerated set, once
      there is one. */
  lemma FullPercentAlwaysRepeats(m: Machine, now: int, rand: Draws)
    requires UnitDraws(rand)
    requires m.pending > 0
    requires m.settings.config.repeatPercentage == 100 && m.pregenerated.Some?
    ensures var r := Step(m, FixationElapsed(now), rand);
      r.lastWasRepeat && r.current == m.pregenerated.value
  {
  }

  /** The trial events of one block: for each trial the fixation timer
      fires at `shown[i]` and Space is pressed at `pressed[i]`. */
  function TrialEvents(shown: seq<int>, pressed: seq<int>): (events: seq<Event>)
    requires |shown| == |pressed|
    ensures |events| == 2 * |shown|
    ensures forall i :: 0 <= i < |shown| ==>
      events[2 * i] == FixationElapsed(shown[i]) && events[2 * i + 1] == KeyDown("Space", pressed[i])
    decreases |shown|
  {
    if shown == [] then []
    else [FixationElapsed(shown[0]), KeyDown("Space", pressed[0])] + TrialEvents(shown[1..], pressed[1..])
  }

  /** A block part-way through, in fullscreen, with the next fixation on. */
  predicate Awaiting(m: Machine) {
    m.active && m.fullscreen && m.showFixation && m.pending > 0
  }

  /** The fixation of a running block ends: the trial is now being timed
      from `shown`, and Space will be heard. */
  lemma FixationEnds(m: Machine, shown: int, rand: Draws)
    requires UnitDraws(rand)
    requires Awaiting(m) && shown > 0
    ensures var a := Step(m, FixationElapsed(shown), rand);
      && Timing(a) && Listening(a, "Space") && a.trialStartTime == Some(shown)
      && a.results == m.results && a.settings == m.settings && a.trialNumber == m.trialNumber
  {
    assert Step(m, FixationElapsed(shown), rand) == Reveal(m, shown, rand);
  }

  /** Space during a timed trial logs the response, then moves on to the
      next fixation or ends the block out of fullscreen. */
  lemma SpaceLogs(a: Machine, pressed: int, rand: Draws)
    requires UnitDraws(rand)
    requires Timing(a) && Listening(a, "Space")
    ensures var b := Step(a, KeyDown("Space", pressed), rand);
      && b.settings == a.settings
      && b.results == a.results + [TrialResult(a.settings.config, a.lastWasRepeat, pressed - a.trialStartTime.value)]
      && (a.trialNumber + 1 < a.settings.totalTrials ==> Awaiting(b) && b.trialNumber == a.trialNumber + 1)
      && (a.trialNumber + 1 >= a.settings.totalTrials ==> !b.active && !b.fullscreen)
  {
    assert Step(a, KeyDown("Space", pressed), rand) == FoundTarget(a, pressed);
  }

  /** One trial of a running block: the fixation ends at a positive time
      `shown`, then Space is pressed at `pressed`. Exactly one result `x`
      is logged, timed from the stimulus to the press; the block moves on
      to the next fixation, or ends out of fullscreen after the last trial. */
  lemma OneTrial(m: Machine, shown: int, pressed: int, rand: Draws) returns (x: TrialResult)
    requires UnitDraws(rand)
    requires Awaiting(m) && shown > 0
    ensures var b := Step(Step(m, FixationElapsed(shown), rand), KeyDown("Space", pressed), rand);
      && b.settings == m.settings
      && b.results == m.results + [x]
      && x.config == m.settings.config && x.timeMs == pressed - shown
      && (m.trialNumber + 1 < m.settings.totalTrials ==> Awaiting(b) && b.trialNumber == m.trialNumber + 1)
      && (m.trialNumber + 1 >= m.settings.totalTrials ==> !b.active && !b.fullscreen)
  {
    var a := Step(m, FixationElapsed(shown), rand);
    FixationEnds(m, shown, rand);
    SpaceLogs(a, pressed, rand);
    x := TrialResult(a.settings.config, a.lastWasRepeat, pressed - a.trialStartTime.value);
  }

  lemma RunTwo(m: Machine, e0: Event, e1: Event, rest: seq<Event>, rand: Draws)
    requires UnitDraws(rand)
    ensures Run(m, [e0, e1] + rest, rand) == Run(Step(Step(m, e0, rand), e1, rand), rest, rand)
  {
    var events := [e0, e1] + rest;
    assert events[1..] == [e1] + rest;
    assert events[1..][1..] == rest;
  }

  /** The first trial of `TrialEvents(shown, pressed)`, as a state to continue
      from: one more result, logged with the block's configuration. */
  lemma FirstTrial(m: Machine, shown: seq<int>, pressed: seq<int>, rand: Draws) returns (b: Machine, x: TrialResult)
    requires UnitDraws(rand)
    requires |shown| == |pressed| > 0
    requires Awaiting(m) && shown[0] > 0
    ensures Run(m, TrialEvents(shown, pressed), rand) == Run(b, TrialEvents(shown[1..], pressed[1..]), rand)
    ensures b.settings == m.settings && b.results == m.results + [x]
    ensures x.config == m.settings.config && x.timeMs == pressed[0] - shown[0]
    ensures m.trialNumber + 1 < m.settings.totalTrials ==> Awaiting(b) && b.trialNumber == m.trialNumber + 1
    ensures m.trialNumber + 1 >= m.settings.totalTrials ==> !b.active && !b.fullscreen
  {
    b := Step(Step(m, FixationElapsed(shown[0]), rand), KeyDown("Space", pressed[0]), rand);
    x := OneTrial(m, shown[0], pressed[0], rand);
    RunTwo(m, FixationElapsed(shown[0]), KeyDown("Space", pressed[0]), TrialEvents(shown[1..], pressed[1..]), rand);
  }

  /** `rs` are the records of trials with stimulus times `shown` and press
      times `pressed`, all under configuration `cfg`. */
  predicate Timed(rs: seq<TrialResult>, cfg: Config, shown: seq<int>, pressed: seq<int>) {
    && |rs| == |shown| == |pressed|
    && forall i :: 0 <= i < |rs| ==> rs[i].config == cfg && rs[i].timeMs == pressed[i] - shown[i]
  }

  lemma TimedCons(x: TrialResult, rs: seq<TrialResult>, cfg: Config, shown: seq<int>, pressed: seq<int>)
    requires |shown| > 0 && |pressed| > 0
    requires x.config == cfg && x.timeMs == pressed[0] - shown[0]
    requires Timed(rs, cfg, shown[1..], pressed[1..])
    ensures Timed([x] + rs, cfg, shown, pressed)
  {
    forall i | 1 <= i < |rs| + 1
      ensures ([x] + rs)[i].timeMs == pressed[i] - shown[i]
    {
      assert ([x] + rs)[i] == rs[i - 1];
      assert shown[1..][i - 1] == shown[i] && pressed[1..][i - 1] == pressed[i];
    }
  }

  /** A sequence whose first `|prefix| + 1` entries are `prefix + [x]`. */
  lemma SplitAfter<T>(rs: seq<T>, prefix: seq<T>, x: T)
    requires |rs| > |prefix| && rs[..|prefix| + 1] == prefix + [x]
    ensures rs[..|prefix|] == prefix
    ensures rs[|prefix|..] == [x] + rs[|prefix| + 1..]
  {
    assert rs[..|prefix|] == rs[..|prefix| + 1][..|prefix|];
    assert rs[|prefix|] == rs[..|prefix| + 1][|prefix|];
  }

  /** A log that extends `prefix + [x]` with the records of the later
      trials extends `prefix` with the records of all of them. */
  lemma LogExtends(prefix: seq<TrialResult>, x: TrialResult, rs: seq<TrialResult>, cfg: Config,
                   shown: seq<int>, pressed: seq<int>)
    requires |shown| > 0 && |pressed| > 0
    requires x.config == cfg && x.timeMs == pressed[0] - shown[0]
    requires |rs| >= |prefix| + 1 && rs[..|prefix| + 1] == prefix + [x]
    requires Timed(rs[|prefix| + 1..], cfg, shown[1..], pressed[1..])
    ensures rs[..|prefix|] == prefix
    ensures Timed(rs[|prefix|..], cfg, shown, pressed)
  {
    SplitAfter(rs, prefix, x);
    TimedCons(x, rs[|prefix| + 1..], cfg, shown, pressed);
  }

  /** Running the remaining trials of a block, with a positive clock,
      records exactly one result per trial, each with the block's
      configuration and the time from stimulus to press, and ends the
      block out of fullscreen. */
  lemma {:induction false} BlockRuns(m: Machine, shown: seq<int>, pressed: seq<int>, rand: Draws)
    requires UnitDraws(rand)
    requires |shown| == |pressed| > 0
    requires Awaiting(m) && m.trialNumber + |shown| == m.settings.totalTrials
    requires forall i :: 0 <= i < |shown| ==> shown[i] > 0
    ensures var r := Run(m, TrialEvents(shown, pressed), rand);
      && !r.active && !r.fullscreen
      && |r.results| >= |m.results|
      && r.results[..|m.results|] == m.results
      && Timed(r.results[|m.results|..], m.settings.config, shown, pressed)
    decreases |shown|
  {
    var n := |m.results|;
    var b, x := FirstTrial(m, shown, pressed, rand);
    if |shown| > 1 {
      BlockRuns(b, shown[1..], pressed[1..], rand);
      var r := Run(b, TrialEvents(shown[1..], pressed[1..]), rand);
      LogExtends(m.results, x, r.results, m.settings.config, shown, pressed);
    } else {
      assert TrialEvents(shown[1..], pressed[1..]) == [];
      assert b.results[n..] == [x];
    }
  }

  /** A whole block: starting an experiment on a canvas that can go
      fullscreen, then for each of the configured number of trials the
      fixation ending at a positive time and Space pressed no earlier,
      ends the block out of fullscreen with exactly one result per trial,
      each carrying the configuration and a non-negative reaction time. */
  lemma Experiment(m: Machine, shown: seq<int>, pressed: seq<int>, rand: Draws)
    requires UnitDraws(rand)
    requires Inv(m) && !m.active
    requires |shown| == |pressed| == m.settings.totalTrials
    requires forall i :: 0 <= i < |shown| ==> 0 < shown[i] <= pressed[i]
    ensures var r := Run(m, [StartClicked(true)] + TrialEvents(shown, pressed), rand);
      && !r.active && !r.fullscreen
      && |r.results| == m.settings.totalTrials
      && forall i :: 0 <= i < |r.results| ==>
           r.results[i].config == m.settings.config && r.results[i].timeMs == pressed[i] - shown[i] >= 0
  {
    var events := [StartClicked(true)] + TrialEvents(shown, pressed);
    var s := Step(m, StartClicked(true), rand);
    assert events[1..] == TrialEvents(shown, pressed);
    BlockRuns(s, shown, pressed, rand);
  }
}
